=== FILE: README.md ===
# Trae SOLO page script, modelled in Dafny

The Trae SOLO IDE front end is one page script, `frontend/script.js`. It keeps an
in-memory file store (`files`), the selected file name (`selectedFile`) and the
sidebar item marked as selected (`selectedFileLi`). Around them sit an editor
widget, a sidebar list of the store's keys, and a chat box. Four user actions
change this state:

- a click on a sidebar item (`openFile`);
- "Generate Project" (`generateProject`), which replaces the store;
- "Auto-complete" (`autoComplete`), which overwrites one entry;
- Enter in the chat input (`sendMessage` and `sendToBackend`), plus the "Ask AI"
  prompt (`askAI`).

The model is one immutable `Page.State` with a pure transition per action. Each
backend reply is a datatype argument, so no request is ever made:

- `GenerateFailed` or `GenerateOk(files)`;
- `CompleteFailed` or `CompleteOk(completion)`;
- `AskFailed` or `AskOk(answer)`.

`Failed` stands for any exception inside the `try`: a network error, a JSON
parse error, or reading a field of a `null` body. An `Option` field stands for a
key the parsed object may lack.

Modules:

- `Wrappers`: `Option`.
- `Text`: `split(".").pop()` as `Split`, `Join` and `LastPiece`, and
  `String.prototype.trim` over the ECMAScript white-space set.
- `Language`: the extension-to-language table.
- `FileStore`: the store, with a key order next to the map. `Object.keys`
  lists keys in insertion order. A JSON object sent by `/generate` keeps a
  repeated key at its first position, holding its last value.
- `Chat`: the chat log, with its "Thinking..." placeholder and the answer
  fallbacks.
- `Page`: the page state and its transitions.

Two modelling choices need explaining:

- **Sidebar items.** A sidebar `li` is referred to by the render that created
  it and its position in that render. After `generateProject` re-renders the
  list, the old `selectedFileLi` is detached: un-marking it has no visible
  effect. `Page.Inv` is the invariant every reachable state keeps, and
  `Page.Run` proves it over any sequence of events. As a result, the sidebar
  never shows more than one selected item.
- **Stale selection.** `generateProject` does not clear `selectedFile` when the
  new store lacks that name (`frontend/script.js:131-132`).
  `Page.GenerateKeepsStaleSelection` shows that the selection survives.
  `Page.StaleSelectionReinserted` shows that a later autocomplete then writes the
  missing name back into the store, at the end of the key order. After that, the
  sidebar no longer lists every key. The one exception in JavaScript is the name
  `__proto__`, which the store, being a plain map, does not single out (see
  "## Left out").

## Model

| member | source | states |
|---|---|---|
| Text.Split | frontend/script.js:41 | `split(".")` gives at least one piece; no piece contains a dot; joining the pieces with dots gives back the name |
| Text.LastPiece | frontend/script.js:41 | `pop()` gives the text after the last dot, or the whole name when it has no dot |
| Text.LastSegmentUnique | frontend/script.js:41 | a name has at most one such last segment |
| Text.LastPieceIff | frontend/script.js:41 | the piece `pop()` returns is exactly the last segment, in both directions |
| Text.Trim | frontend/script.js:71 | `trim()` returns the infix left after white space is cut from both ends; the result is empty exactly when the input is all white space, and otherwise starts and ends with a non-space character |
| Language.Extension | frontend/script.js:41 | a file's extension is the last dot-separated segment of its name |
| Language.FromExtension | frontend/script.js:44-49 | the table gives a non-plain-text language exactly for py, js, html, css and md |
| Language.FromExtensionIds | frontend/script.js:44-51 | the language id passed to `setModelLanguage` is python for py, javascript for js, html for html, css for css, markdown for md, and plaintext for every other extension |
| Language.KnownExtensionsAreIds | frontend/script.js:44-49 | the extensions with a language are exactly the keys of the id table |
| Language.FromExtensionInjective | frontend/script.js:44-49 | distinct known extensions get distinct languages |
| Language.DetectKnown | frontend/script.js:41-49 | a name gets a known extension's language if and only if it ends in `.ext` or is `ext` itself (a file named `py` is Python) |
| Language.DetectPlain | frontend/script.js:41-49 | a name is plain text if and only if it has none of the known extensions |
| Language.DetectExamples | frontend/script.js:41-51 | `main.py` and a file named `py` are shown as python; `notes.txt` and `Makefile` as plaintext |
| Language.DetectIndexHtml | frontend/script.js:41-49 | `index.html` is shown as HTML |
| FileStore.Get | frontend/script.js:40 | `files[name]` with its empty-string fallback is the stored text of a present name (an empty entry reads as empty) and the empty string for an absent one |
| FileStore.Put | frontend/script.js:166 | an assignment sets one key; every other key keeps its presence and value; an existing key keeps its place in the order and a new one goes at the end |
| FileStore.FromEntries | frontend/script.js:128-131 | the object parsed from the reply has exactly the keys of its members, each listed once |
| FileStore.FromEntriesValues | frontend/script.js:128-131 | each key holds the value of its last member |
| FileStore.FromEntriesOrder | frontend/script.js:128-132 | `Object.keys` lists the keys in the order of their first member |
| Chat.AnswerText | frontend/script.js:104-116 | the answer entry is never empty; it is `data.answer` when that is non-empty, the "No response" text when it is missing or empty, and the "Backend not reachable" text when the exchange failed |
| Chat.RemoveAt | frontend/script.js:104 | `loadingDiv.remove()` removes exactly that one entry and keeps the others in order |
| Chat.ResolveLatest | frontend/script.js:84-109 | removing the placeholder just added and appending the answer leaves the question followed by the answer, with the placeholder count unchanged |
| Page.Render | frontend/script.js:27-37 | `loadFileList` lists one unmarked item per key, in key order, and changes nothing else |
| Page.Unmark | frontend/script.js:53 | only the marked item of the current render loses its mark; a detached item changes nothing |
| Page.OpenFile | frontend/script.js:39-57 | `openFile` leaves the store alone; it shows the stored text (or empty) under the name's language and selects the name; when the marks agree with `selectedFileLi`, the clicked item becomes the only marked one |
| Page.ClickEachNone | frontend/script.js:136-139 | when no item is named `index.html`, the loop clicks nothing |
| Page.ClickEachOne | frontend/script.js:136-139 | when exactly one item is named `index.html`, the loop is one click on it |
| Page.InvAtMostOneMarked | frontend/script.js:53-55 | when the marks agree with `selectedFileLi`, at most one item is marked |
| Page.ClickPreservesInv | frontend/script.js:53-56 | a click keeps the invariant and leaves exactly the clicked item marked |
| Page.RenderedUnique | frontend/script.js:30-36 | a freshly rendered list has exactly one item per stored key |
| Page.GenerateFailedEffect | frontend/script.js:128-144 | a failed request, or a reply without `files`, raises one alert and changes neither the store, the list, the selection nor the editor |
| Page.GenerateNoIndexEffect | frontend/script.js:131-135 | without a non-empty `index.html`, generation replaces the store, lists exactly its keys unmarked, and keeps the selection and the editor |
| Page.ClickFresh | frontend/script.js:53-56 | clicking an item of a fresh list opens that file, and only items with that name are marked |
| Page.GenerateIndexUnfold | frontend/script.js:134-140 | with a non-empty `index.html`, generation is a fresh render followed by one click on that item |
| Page.GenerateIndexEffect | frontend/script.js:131-140 | that generation replaces the store and lists exactly its keys; the chat and the alerts are untouched |
| Page.GenerateOpensIndex | frontend/script.js:134-140 | that generation selects `index.html`, shows its text as HTML, and marks only its item |
| Page.GenerateKeepsStaleSelection | frontend/script.js:131-132 | the selection is kept even when the new store lacks the selected name |
| Page.ReloadPreservesInv | frontend/script.js:131-132 | replacing the store and re-rendering keeps the invariant |
| Page.GeneratePreservesInv | frontend/script.js:121-145 | every outcome of generation keeps the invariant |
| Page.CompletionRequest | frontend/script.js:149-159 | a request is sent exactly when a non-empty name is selected; it carries the editor's live text and the selected name |
| Page.AutoComplete | frontend/script.js:148-173 | with no selection, a failure, or an empty or missing completion, only an alert is added; a non-empty completion replaces the editor text and the selected file's entry, and no other entry changes |
| Page.AutoCompletePreservesInv | frontend/script.js:164-166 | autocomplete keeps the invariant |
| Page.StaleSelectionReinserted | frontend/script.js:166 | a completion for a selected name missing from the store adds that name at the end of the key order, and the sidebar stops listing every key |
| Page.ChatQuestion | frontend/script.js:68-72 | a question is sent exactly on Enter with input that is not all white space, and it is the trimmed input |
| Page.Submit | frontend/script.js:68-87 | on Enter with non-blank input, the log keeps its old entries and gains the trimmed question and then one placeholder, at the position the answer later removes; the input is cleared; nothing outside the chat changes; another key, or a blank input, changes nothing |
| Page.Answer | frontend/script.js:104-116 | resolving removes the placeholder, if any, keeps every other entry in order, appends exactly one AI entry, and changes nothing outside the log |
| Page.SendMessageIgnored | frontend/script.js:67-72 | another key, or a blank input, changes nothing; the input is not cleared |
| Page.SendMessageEffect | frontend/script.js:67-91 | otherwise, the log gains the trimmed question and one answer; the input is cleared; no placeholder is left over |
| Page.AskAI | frontend/script.js:60-64 | an empty or cancelled prompt changes nothing; otherwise, exactly one AI entry is appended, with no user entry and no placeholder |
| Page.Init | frontend/script.js:15-24 | the page starts with the five demo files listed in declaration order, nothing selected or marked, and an empty chat |
| Page.SendMessagePreservesInv | frontend/script.js:67-118 | a chat keydown keeps the invariant |
| Page.AskAIPreservesInv | frontend/script.js:60-64 | an answer to the prompt keeps the invariant |
| Page.NextPreservesInv | frontend/script.js:23-24 | every event keeps the invariant on `files`, `selectedFile` and `selectedFileLi` |
| Page.NextKeepsChat | frontend/script.js:67-118 | no event takes anything out of the chat log |
| Page.Run | frontend/script.js:53-56 | after any sequence of events the invariant holds, at most one sidebar item is marked, and the earlier chat log is a prefix of the new one |

## Left out

- Monaco loading from the CDN (`frontend/script.js:1-12`), and the widget's own behaviour. The model starts once the editor exists and the first list has been rendered (`Page.Init`). The editor is reduced to its text and language.
- DOM construction, class lists, scrolling, and the dialogs. Each `alert` is an entry in `State.alerts`, and the `prompt` answer is an input of `Page.AskAI`.
- `fetch`, HTTP headers, and JSON parsing. Replies are inputs, already parsed.
- Non-string values in a parsed reply. This covers a `files` object with non-string contents, and a truthy `completion` or `answer` that is not a string. The model only has strings.
- A truthy `files` that is not an object, such as a string, a number, `true` or an array. It passes the `!data.files` check and becomes the store, and `Object.keys` then lists its indices, or nothing. `GenerateReply` only carries an object's members, so it cannot express such a reply.
- FileStore.Put: the store is a plain map. An assignment to the key `__proto__` is therefore modelled as adding that key, whereas JavaScript runs the built-in prototype setter, which ignores a string value and adds nothing. `JSON.parse` does create `__proto__` as an ordinary key, so this case is reachable.
- Page.StaleSelectionReinserted: has the same `__proto__` caveat. For that one name, JavaScript adds no key, while the lemma states that the key is added.
- `Object.keys` ordering of integer-like keys, which JavaScript lists before the other keys. The model uses plain insertion order.
- Several requests in flight at once, such as two coexisting placeholders or a late autocomplete arriving after a file switch. `Page.SendMessage` submits and resolves in one step. `Page.Answer` is stated for any placeholder position.
- `backend/app.py` is not part of this model. It is a mock whose `/ask` route reads `message` and returns `reply`, whereas the page sends `question` and reads `answer`, so against that backend every chat answer is the "No response" text.
- Strings are sequences of Unicode scalar values, where JavaScript uses UTF-16 code units, so a name or message holding a lone surrogate cannot be represented. The dot and every character `trim()` removes are single code units, so splitting and trimming are unaffected.
- FileStore.Get: "absent" means not an own key of `files` and not a member of `Object.prototype`. For an inherited name such as `toString` or `constructor`, `files[name] || ""` gives a truthy non-string, which the model does not represent. The page only opens names it has listed, and every listed name is an own key, so the case is not reached.
- Page.OpenFile: has the same caveat for its empty-editor clause on an absent name.

=== FILE: chat.dfy ===
/** The chat panel's log and the `/ask` exchange that feeds it. */
module Chat {
  import opened Wrappers

  /** One `div.chat-message` in the chat box. The placeholder is the `ai` entry
      reading "🤖 Thinking..." that stands in for an answer still on its way. */
  datatype Entry = User(text: string) | Ai(text: string) | Thinking

  const NoResponseText: string := "\U{1F916} No response from AI."
  const UnreachableText: string := "\U{274C} Backend not reachable!"

  /** What `/ask` gave back: the request or the JSON parse failed, or the parsed
      object, whose `answer` field may be missing. */
  datatype AskReply = AskFailed | AskOk(answer: Option<string>)

  /** The text of the one entry an answer adds: `data.answer || "No response"`, or
      the unreachable-backend text when the exchange threw. */
  function AnswerText(reply: AskReply): (t: string)
    ensures t != ""
    ensures reply.AskOk? && reply.answer.Some? && reply.answer.value != "" ==> t == reply.answer.value
    ensures reply.AskOk? && (reply.answer.None? || reply.answer.value == "") ==> t == NoResponseText
    ensures reply.AskFailed? ==> t == UnreachableText
  {
    match reply
    case AskFailed => UnreachableText
    case AskOk(answer) =>
      if answer.Some? && answer.value != "" then answer.value else NoResponseText
  }

  /** `loadingDiv.remove()`: the log without its entry at `p`, the rest in order. */
  function RemoveAt(log: seq<Entry>, p: nat): (r: seq<Entry>)
    requires p < |log|
    ensures |r| == |log| - 1
    ensures forall i :: 0 <= i < p ==> r[i] == log[i]
    ensures forall i :: p <= i < |r| ==> r[i] == log[i + 1]
    ensures multiset(r) == multiset(log) - multiset{log[p]}
  {
    assert log == log[..p] + [log[p]] + log[p + 1..];
    log[..p] + log[p + 1..]
  }

  /** The number of placeholders in the log. */
  function Placeholders(log: seq<Entry>): nat {
    multiset(log)[Thinking]
  }

  /** Resolving the placeholder a submission has just appended leaves the question
      followed by the answer, and no more placeholders than before. */
  lemma ResolveLatest(log: seq<Entry>, q: string, t: string)
    ensures RemoveAt(log + [User(q), Thinking], |log| + 1) + [Ai(t)] == log + [User(q), Ai(t)]
    ensures Placeholders(log + [User(q), Ai(t)]) == Placeholders(log)
  {
    assert (log + [User(q), Thinking])[..|log| + 1] == log + [User(q)];
  }

}

=== FILE: file_store.dfy ===
/** The page's `files` object: file names mapped to their text, with the key order
    `Object.keys` reports (insertion order; integer-like keys are not treated apart). */
module FileStore {

  datatype Store = Store(order: seq<string>, contents: map<string, string>)

  predicate Distinct(xs: seq<string>) {
    forall i, j :: 0 <= i < j < |xs| ==> xs[i] != xs[j]
  }

  /** The order lists every key exactly once. */
  ghost predicate Valid(st: Store) {
    && Distinct(st.order)
    && (forall k :: k in st.contents <==> k in st.order)
  }

  /** `files[name] || ""`: the stored text, or the empty string for a missing name. */
  function Get(st: Store, name: string): (v: string)
    ensures name in st.contents ==> v == st.contents[name]
    ensures name !in st.contents ==> v == ""
  {
    if name in st.contents && st.contents[name] != "" then st.contents[name] else ""
  }

  /** JavaScript truthiness of `files[name]`: present and not the empty string. */
  predicate Truthy(st: Store, name: string) {
    name in st.contents && st.contents[name] != ""
  }

  /** `files[name] = v`: overwrite in place, or add a new key at the end of the order. */
  function Put(st: Store, name: string, v: string): (r: Store)
    requires Valid(st)
    ensures Valid(r)
    ensures name in r.contents && r.contents[name] == v
    ensures forall k :: k != name ==> (k in r.contents <==> k in st.contents)
    ensures forall k :: k != name && k in st.contents ==> r.contents[k] == st.contents[k]
    ensures st.order <= r.order
    ensures name in st.contents ==> r.order == st.order
    ensures name !in st.contents ==> r.order[|st.order|..] == [name]
  {
    if name in st.contents then Store(st.order, st.contents[name := v])
    else Store(st.order + [name], st.contents[name := v])
  }

  /* ------------------------- a parsed JSON object ------------------------- */

  /** The keys of a JSON object's members, in the order the text lists them. */
  function Names(entries: seq<(string, string)>): (ns: seq<string>)
    ensures |ns| == |entries|
    ensures forall i :: 0 <= i < |entries| ==> ns[i] == entries[i].0
  {
    seq(|entries|, i requires 0 <= i < |entries| => entries[i].0)
  }

  /** The position of the first occurrence of `x` in `xs`. */
  function FirstIndex(xs: seq<string>, x: string): (i: nat)
    requires x in xs
    ensures i < |xs| && xs[i] == x
    ensures forall j :: 0 <= j < i ==> xs[j] != x
  {
    if xs[0] == x then 0 else 1 + FirstIndex(xs[1..], x)
  }

  /** Member `i` is not overwritten by a later member with the same key. */
  predicate LastWrite(entries: seq<(string, string)>, i: nat)
    requires i < |entries|
  {
    forall j :: i < j < |entries| ==> entries[j].0 != entries[i].0
  }

  /** The object `JSON.parse` builds from the members `entries`: members are
      assigned in order, so a repeated key keeps its first position and its last value. */
  function FromEntries(entries: seq<(string, string)>): (r: Store)
    ensures Valid(r)
    ensures forall k :: k in r.contents <==> k in Names(entries)
    decreases |entries|
  {
    if |entries| == 0 then Store([], map[])
    else
      var prefix := entries[..|entries| - 1];
      var last := entries[|entries| - 1];
      assert Names(entries) == Names(prefix) + [last.0];
      Put(FromEntries(prefix), last.0, last.1)
  }

  /** A member not overwritten in `entries` is not overwritten in any longer prefix either. */
  lemma LastWritePrefix(entries: seq<(string, string)>, i: nat)
    requires i < |entries| - 1 && LastWrite(entries, i)
    ensures entries[..|entries| - 1][i] == entries[i]
    ensures LastWrite(entries[..|entries| - 1], i)
    ensures entries[i].0 != entries[|entries| - 1].0
  {
  }

  /** Every key holds the value of its last member. */
  lemma {:induction false} FromEntriesValues(entries: seq<(string, string)>, i: nat)
    requires i < |entries| && LastWrite(entries, i)
    ensures entries[i].0 in FromEntries(entries).contents
    ensures FromEntries(entries).contents[entries[i].0] == entries[i].1
    decreases |entries|
  {
    var n := |entries|;
    var p := FromEntries(entries[..n - 1]);
    assert FromEntries(entries) == Put(p, entries[n - 1].0, entries[n - 1].1);
    if i < n - 1 {
      LastWritePrefix(entries, i);
      FromEntriesValues(entries[..n - 1], i);
    }
  }

  /** First occurrences of earlier keys stay put when a member is appended. */
  lemma FirstIndexAppend(xs: seq<string>, y: string, x: string)
    requires x in xs
    ensures x in xs + [y] && FirstIndex(xs + [y], x) == FirstIndex(xs, x)
  {
    var i := FirstIndex(xs, x);
    assert (xs + [y])[i] == x;
  }

  /** An appended key not seen before first occurs at the end. */
  lemma FirstIndexNew(xs: seq<string>, y: string)
    requires y !in xs
    ensures FirstIndex(xs + [y], y) == |xs|
  {
  }

  /** Appending a member appends its key. */
  lemma NamesSnoc(entries: seq<(string, string)>)
    requires |entries| > 0
    ensures Names(entries) == Names(entries[..|entries| - 1]) + [entries[|entries| - 1].0]
  {
    var n := |entries|;
    var ns, ps := Names(entries), Names(entries[..n - 1]);
    forall i | 0 <= i < n ensures ns[i] == (ps + [entries[n - 1].0])[i] {
      if i < n - 1 { assert entries[..n - 1][i] == entries[i]; }
    }
  }

  /** The last member is applied on top of the object built from the others. */
  lemma FromEntriesSnoc(entries: seq<(string, string)>)
    requires |entries| > 0
    ensures var n := |entries|;
      FromEntries(entries) == Put(FromEntries(entries[..n - 1]), entries[n - 1].0, entries[n - 1].1)
  {
    var n := |entries|;
    var prefix := entries[..n - 1];
    var p := FromEntries(prefix);
    assert FromEntries(entries) == Put(p, entries[n - 1].0, entries[n - 1].1);
  }

  /** The keys are listed in order of their first member. */
  lemma {:induction false} FromEntriesOrder(entries: seq<(string, string)>, a: nat, b: nat)
    requires a < b < |FromEntries(entries).order|
    ensures FromEntries(entries).order[a] in Names(entries)
    ensures FromEntries(entries).order[b] in Names(entries)
    ensures FirstIndex(Names(entries), FromEntries(entries).order[a])
          < FirstIndex(Names(entries), FromEntries(entries).order[b])
    decreases |entries|
  {
    var n := |entries|;
    var prefix := entries[..n - 1];
    var last := entries[n - 1];
    var ps := Names(prefix);
    var p := FromEntries(prefix);
    var r := FromEntries(entries);
    FromEntriesSnoc(entries);
    NamesSnoc(entries);
    var x, y := r.order[a], r.order[b];
    assert x == p.order[a];
    assert x in ps;
    FirstIndexAppend(ps, last.0, x);
    if b < |p.order| {
      assert y == p.order[b];
      FromEntriesOrder(prefix, a, b);
      FirstIndexAppend(ps, last.0, y);
    } else {
      // the last member added the key `y`
      assert y == last.0 && y !in ps;
      FirstIndexNew(ps, y);
    }
  }

}

=== FILE: language.dfy ===
/** The editor's language tag, derived from a file name alone. */
module Language {
  import Text

  /** The Monaco language ids the page ever sets. */
  datatype Lang = PlainText | Python | JavaScript | Html | Css | Markdown {
    function Id(): string {
      match this
      case PlainText => "plaintext"
      case Python => "python"
      case JavaScript => "javascript"
      case Html => "html"
      case Css => "css"
      case Markdown => "markdown"
    }
  }

  /** The extensions with a dedicated language. */
  const KnownExtensions: set<string> := {"py", "js", "html", "css", "md"}

  /** The extension of a file name: `filename.split(".").pop()`. */
  function Extension(name: string): (ext: string)
    ensures Text.IsLastSegment(name, ext, '.')
  {
    Text.LastPiece(name, '.')
  }

  /** The Monaco id each known extension is shown under, as `openFile` assigns it. */
  const LanguageIds: map<string, string> :=
    map["py" := "python", "js" := "javascript", "html" := "html", "css" := "css", "md" := "markdown"]

  /** The lookup table; every other extension, including the empty one, is plain text. */
  function FromExtension(ext: string): (l: Lang)
    ensures l != PlainText <==> ext in KnownExtensions
  {
    if ext == "py" then Python
    else if ext == "js" then JavaScript
    else if ext == "html" then Html
    else if ext == "css" then Css
    else if ext == "md" then Markdown
    else PlainText
  }

  /** The tag `openFile` gives the editor for `name`. */
  function Detect(name: string): Lang {
    FromExtension(Extension(name))
  }

  /** No two known extensions share a language. */
  lemma FromExtensionInjective(e1: string, e2: string)
    requires e1 in KnownExtensions
    ensures FromExtension(e1) == FromExtension(e2) <==> e1 == e2
  {
  }

  /** `name` is `ext` itself or ends in `.ext`. */
  predicate HasExtension(name: string, ext: string) {
    name == ext || (|name| > |ext| && name[|name| - |ext| - 1..] == ['.'] + ext)
  }

  /** A known language is chosen exactly for the names ending in its extension
      (or consisting of it: a file literally named `py` is Python). */
  lemma DetectKnown(name: string, ext: string)
    requires ext in KnownExtensions
    ensures Detect(name) == FromExtension(ext) <==> HasExtension(name, ext)
  {
    var e := Extension(name);
    assert '.' !in ext;
    if HasExtension(name, ext) {
      if name != ext {
        assert name[|name| - |ext|..] == (['.'] + ext)[1..];
      }
      assert Text.IsLastSegment(name, ext, '.');
      Text.LastSegmentUnique(name, e, ext, '.');
    }
    if Detect(name) == FromExtension(ext) {
      FromExtensionInjective(ext, e);
      if name != ext {
        assert name[|name| - |ext| - 1..] == [name[|name| - |ext| - 1]] + name[|name| - |ext|..];
      }
    }
  }

  /** Everything else is plain text: an unknown extension, an empty one, or none at all. */
  lemma DetectPlain(name: string)
    ensures Detect(name) == PlainText <==> forall ext :: ext in KnownExtensions ==> !HasExtension(name, ext)
  {
    forall ext | ext in KnownExtensions ensures Detect(name) == FromExtension(ext) <==> HasExtension(name, ext) {
      DetectKnown(name, ext);
    }
  }

  /** The extensions with a language are exactly the keys of the id table. */
  lemma KnownExtensionsAreIds()
    ensures KnownExtensions == LanguageIds.Keys
  {
  }

  /** The table against the ids `setModelLanguage` receives: each known extension
      gets its own language, everything else plain text. */
  lemma FromExtensionIds(ext: string)
    ensures FromExtension(ext).Id() == (if ext in LanguageIds then LanguageIds[ext] else "plaintext")
  {
  }

  lemma DetectMainPy()
    ensures Detect("main.py") == Python
  {
    DetectKnown("main.py", "py");
  }

  lemma DetectBarePy()
    ensures Detect("py") == Python
  {
    DetectKnown("py", "py");
  }

  lemma DetectNotesTxt()
    ensures Detect("notes.txt") == PlainText
  {
    assert Text.IsLastSegment("notes.txt", "txt", '.');
    Text.LastPieceIff("notes.txt", "txt", '.');
  }

  lemma DetectMakefile()
    ensures Detect("Makefile") == PlainText
  {
    assert Text.IsLastSegment("Makefile", "Makefile", '.');
    Text.LastPieceIff("Makefile", "Makefile", '.');
  }

  /** A few names: the extension is what follows the last dot, and a name without a
      dot is its own extension. */
  lemma DetectExamples()
    ensures Detect("main.py").Id() == "python"
    ensures Detect("py").Id() == "python"
    ensures Detect("notes.txt").Id() == "plaintext"
    ensures Detect("Makefile").Id() == "plaintext"
  {
    DetectMainPy();
    DetectBarePy();
    DetectNotesTxt();
    DetectMakefile();
  }

  /** The file `generateProject` opens is shown as HTML. */
  lemma DetectIndexHtml()
    ensures Detect("index.html") == Html
  {
    DetectKnown("index.html", "html");
  }

}

=== FILE: page.dfy ===
/** The page behind `frontend/script.js` as one immutable state and pure transitions.
    The editor widget is two fields (text and language); the sidebar is the sequence of
    `li` items of the latest `loadFileList`; backend replies are inputs. */
module Page {
  import opened Wrappers
  import opened FileStore
  import Text
  import Language
  import Chat

  /* ------------------------------- the state ------------------------------- */

  /** One `li.file-item` in the sidebar; `marked` is its `selected` class. */
  datatype Item = Item(name: string, marked: bool)

  /** A reference to an `li`: the render (call of `loadFileList`) that created it and
      its position there. An `li` of an older render is detached from the page. */
  datatype LiRef = LiRef(render: nat, index: nat)

  /** What the editor shows: its text and its language tag. */
  datatype Editor = Editor(text: string, lang: Language.Lang)

  /** The `alert` dialogs the page can raise. */
  datatype Alert = OpenFileFirst | NoCompletion | AutoCompleteFailed | GenerationFailed

  datatype State = State(
    files: Store,              // `files`
    selected: Option<string>,  // `selectedFile`
    markedLi: Option<LiRef>,   // `selectedFileLi`
    render: nat,               // how many times the list was rendered
    items: seq<Item>,          // the sidebar's current `li` elements
    editor: Editor,
    chatInput: string,         // the chat input box's value
    chat: seq<Chat.Entry>,     // the chat box, oldest first
    alerts: seq<Alert>         // every alert raised so far
  )

  /* ------------------------------ backend replies ------------------------------ */

  /** `/generate`: the request or the parse failed, or the parsed object, whose `files`
      field is missing (None) or an object with the given members. */
  datatype GenerateReply = GenerateFailed | GenerateOk(files: Option<seq<(string, string)>>)

  /** `/autocomplete`: the request or the parse failed, or the parsed object with its
      `completion` field, if any. */
  datatype CompleteReply = CompleteFailed | CompleteOk(completion: Option<string>)

  /** The body `autoComplete` posts. */
  datatype CompleteRequest = CompleteRequest(code: string, file: string)

  /** The key of a `keydown` in the chat input. */
  datatype Key = Enter | OtherKey

  /* ------------------------------ the file list ------------------------------ */

  function ItemNames(items: seq<Item>): (ns: seq<string>)
    ensures |ns| == |items|
    ensures forall i :: 0 <= i < |items| ==> ns[i] == items[i].name
  {
    seq(|items|, i requires 0 <= i < |items| => items[i].name)
  }

  predicate NoneMarked(items: seq<Item>) {
    forall i :: 0 <= i < |items| ==> !items[i].marked
  }

  predicate AtMostOneMarked(items: seq<Item>) {
    forall i, j :: 0 <= i < |items| && 0 <= j < |items| && items[i].marked && items[j].marked ==> i == j
  }

  /** `loadFileList`: a fresh, unmarked `li` per key, in key order. */
  function Render(s: State): (r: State)
    ensures ItemNames(r.items) == s.files.order
    ensures NoneMarked(r.items)
    ensures r.render == s.render + 1
    ensures r == s.(render := r.render, items := r.items)
  {
    var o := s.files.order;
    s.(render := s.render + 1, items := seq(|o|, i requires 0 <= i < |o| => Item(o[i], false)))
  }

  /** Removing the `selected` class from the previously marked `li`: only an `li`
      of the current render is visible in the sidebar. */
  function Unmark(items: seq<Item>, marked: Option<LiRef>, render: nat): (r: seq<Item>)
    ensures |r| == |items| && ItemNames(r) == ItemNames(items)
    ensures forall i :: 0 <= i < |r| ==>
      r[i].marked == (items[i].marked && marked != Some(LiRef(render, i)))
  {
    if marked.Some? && marked.value.render == render && marked.value.index < |items| then
      var k := marked.value.index;
      items[k := items[k].(marked := false)]
    else items
  }

  /** The selection marks agree with `selectedFileLi`: a marked `li` is the one it names. */
  ghost predicate MarksAgree(s: State) {
    forall i :: 0 <= i < |s.items| && s.items[i].marked ==> s.markedLi == Some(LiRef(s.render, i))
  }

  /** `openFile(name, li)`: show the stored text (empty if there is none) under the
      language of the name, move the `selected` class to `li`, remember the name. */
  function OpenFile(s: State, name: string, li: nat): (r: State)
    requires li < |s.items|
    ensures r.files == s.files
    ensures r.selected == Some(name)
    ensures name in s.files.contents ==> r.editor.text == s.files.contents[name]
    ensures name !in s.files.contents ==> r.editor.text == ""
    ensures r.editor.lang == Language.Detect(name)
    ensures r.markedLi == Some(LiRef(s.render, li))
    ensures ItemNames(r.items) == ItemNames(s.items)
    ensures MarksAgree(s) ==> forall i :: 0 <= i < |r.items| ==> (r.items[i].marked <==> i == li)
    ensures r.render == s.render && r.chat == s.chat && r.chatInput == s.chatInput && r.alerts == s.alerts
  {
    var content := Get(s.files, name);
    var lang := Language.Detect(name);
    var items := Unmark(s.items, s.markedLi, s.render);
    s.(editor := Editor(content, lang),
       items := items[li := items[li].(marked := true)],
       markedLi := Some(LiRef(s.render, li)),
       selected := Some(name))
  }

  /** A click on the sidebar's `li` number `i` (its handler passes the `li`'s own name). */
  function Click(s: State, i: nat): State
    requires i < |s.items|
  {
    OpenFile(s, s.items[i].name, i)
  }

  /** `querySelectorAll("#file-list li").forEach(li => if (li.textContent === name) li.click())`,
      from position `i` on. */
  function ClickEach(s: State, name: string, i: nat): State
    requires i <= |s.items|
    decreases |s.items| - i
  {
    if i == |s.items| then s
    else
      var next := if s.items[i].name == name then Click(s, i) else s;
      ClickEach(next, name, i + 1)
  }

  /** With no matching `li` left, the loop clicks nothing. */
  lemma {:induction false} ClickEachNone(s: State, name: string, i: nat)
    requires i <= |s.items|
    requires forall j :: i <= j < |s.items| ==> s.items[j].name != name
    ensures ClickEach(s, name, i) == s
    decreases |s.items| - i
  {
    if i < |s.items| {
      ClickEachNone(s, name, i + 1);
    }
  }

  /** With exactly one matching `li`, the loop is one click on it. */
  lemma {:induction false} ClickEachOne(s: State, name: string, i: nat, k: nat)
    requires i <= k < |s.items| && s.items[k].name == name
    requires forall j :: i <= j < |s.items| && j != k ==> s.items[j].name != name
    ensures ClickEach(s, name, i) == Click(s, k)
    decreases |s.items| - i
  {
    if i < k {
      ClickEachOne(s, name, i + 1, k);
    } else {
      var c := Click(s, k);
      assert ItemNames(c.items) == ItemNames(s.items);
      ClickEachNone(c, name, k + 1);
    }
  }

  /* ------------------------------ the invariant ------------------------------ */

  /** What holds of every state the page reaches. The sidebar shows the store's keys
      in order, except that keys added by autocomplete since the last render are missing. */
  ghost predicate Inv(s: State) {
    && Valid(s.files)
    && ItemNames(s.items) <= s.files.order
    && MarksAgree(s)
    && (s.markedLi.Some? ==> s.markedLi.value.render <= s.render)
    && (s.markedLi.Some? && s.markedLi.value.render == s.render ==>
          && s.markedLi.value.index < |s.items|
          && s.selected == Some(s.items[s.markedLi.value.index].name))
  }

  lemma InvAtMostOneMarked(s: State)
    requires MarksAgree(s)
    ensures AtMostOneMarked(s.items)
  {
  }

  /** Clicking an `li` keeps the invariant, and the clicked `li` is the only marked one. */
  lemma ClickPreservesInv(s: State, i: nat)
    requires Inv(s) && i < |s.items|
    ensures Inv(Click(s, i))
    ensures forall j :: 0 <= j < |s.items| ==> (Click(s, i).items[j].marked <==> j == i)
  {
    var r := Click(s, i);
    assert ItemNames(r.items) == ItemNames(s.items);
    assert r.items[i].name == ItemNames(r.items)[i] == ItemNames(s.items)[i];
  }

  /* ---------------------------- generate project ---------------------------- */

  /** `generateProject`: on a reply with a `files` object, replace the store, re-render
      the list and open `index.html` if it has content; otherwise raise an alert. */
  function Generate(s: State, reply: GenerateReply): State {
    match reply
    case GenerateOk(Some(entries)) =>
      var loaded := Render(s.(files := FromEntries(entries)));
      if Truthy(loaded.files, "index.html") then ClickEach(loaded, "index.html", 0) else loaded
    case _ =>
      s.(alerts := s.alerts + [GenerationFailed])
  }

  /** The items of a fresh render name each key once, so exactly the `li` at `k` is named `name`. */
  lemma RenderedUnique(s: State, name: string) returns (k: nat)
    requires Valid(s.files) && ItemNames(s.items) == s.files.order && name in s.files.contents
    ensures k < |s.items| && s.items[k].name == name
    ensures forall j :: 0 <= j < |s.items| && j != k ==> s.items[j].name != name
  {
    k :| 0 <= k < |s.files.order| && s.files.order[k] == name;
    assert s.items[k].name == ItemNames(s.items)[k];
    forall j | 0 <= j < |s.items| && j != k ensures s.items[j].name != name {
      assert s.items[j].name == ItemNames(s.items)[j];
    }
  }

  /** A failed generation, or a reply without `files`, leaves the store, the list,
      the selection and the editor alone and raises one alert. */
  lemma GenerateFailedEffect(s: State, reply: GenerateReply)
    requires reply.GenerateFailed? || reply.files.None?
    ensures var r := Generate(s, reply);
      && r.files == s.files && r.items == s.items && r.render == s.render
      && r.selected == s.selected && r.markedLi == s.markedLi && r.editor == s.editor
      && r.chat == s.chat && r.chatInput == s.chatInput
      && r.alerts == s.alerts + [GenerationFailed]
  {
  }

  /** A successful generation replaces the store wholesale and lists exactly its keys;
      without an `index.html` with content it opens nothing and keeps the old selection. */
  lemma GenerateNoIndexEffect(s: State, entries: seq<(string, string)>)
    requires !Truthy(FromEntries(entries), "index.html")
    ensures var r := Generate(s, GenerateOk(Some(entries)));
      && r.files == FromEntries(entries)
      && ItemNames(r.items) == r.files.order && NoneMarked(r.items)
      && r.selected == s.selected && r.markedLi == s.markedLi && r.editor == s.editor
      && r.render == s.render + 1
      && r.chat == s.chat && r.chatInput == s.chatInput && r.alerts == s.alerts
  {
  }

  /** Clicking an `li` of a freshly rendered list: it becomes the only marked one, and
      since names are distinct, it is the only `li` with its name. */
  lemma ClickFresh(s: State, k: nat)
    requires Valid(s.files) && ItemNames(s.items) == s.files.order && NoneMarked(s.items)
    requires k < |s.items|
    ensures var r := Click(s, k);
      && r.files == s.files
      && ItemNames(r.items) == s.files.order
      && r.selected == Some(s.items[k].name)
      && r.editor == Editor(s.files.contents[s.items[k].name], Language.Detect(s.items[k].name))
      && (forall i :: 0 <= i < |r.items| ==> (r.items[i].marked <==> r.items[i].name == s.items[k].name))
      && r.chat == s.chat && r.chatInput == s.chatInput && r.alerts == s.alerts
  {
    var r := Click(s, k);
    assert s.items[k].name == s.files.order[k];
    forall i | 0 <= i < |r.items| ensures r.items[i].marked <==> r.items[i].name == s.items[k].name {
      assert r.items[i].name == ItemNames(r.items)[i] == s.files.order[i];
    }
  }

  /** With content in `index.html`, generation is the fresh render followed by one click. */
  lemma GenerateIndexUnfold(s: State, entries: seq<(string, string)>) returns (loaded: State, k: nat)
    requires Truthy(FromEntries(entries), "index.html")
    ensures loaded == Render(s.(files := FromEntries(entries)))
    ensures k < |loaded.items| && loaded.items[k].name == "index.html"
    ensures Generate(s, GenerateOk(Some(entries))) == Click(loaded, k)
  {
    loaded := Render(s.(files := FromEntries(entries)));
    assert Generate(s, GenerateOk(Some(entries))) == ClickEach(loaded, "index.html", 0);
    k := RenderedUnique(loaded, "index.html");
    ClickEachOne(loaded, "index.html", 0, k);
  }

  /** A successful generation whose store has an `index.html` with content replaces the
      store and lists exactly its keys... */
  lemma GenerateIndexEffect(s: State, entries: seq<(string, string)>)
    requires Truthy(FromEntries(entries), "index.html")
    ensures var r := Generate(s, GenerateOk(Some(entries)));
      && r.files == FromEntries(entries)
      && ItemNames(r.items) == r.files.order
      && r.chat == s.chat && r.chatInput == s.chatInput && r.alerts == s.alerts
  {
    var loaded, k := GenerateIndexUnfold(s, entries);
    ClickFresh(loaded, k);
  }

  /** ...and opens `index.html`: its text as HTML, its `li` the only marked one. */
  lemma GenerateOpensIndex(s: State, entries: seq<(string, string)>)
    requires Truthy(FromEntries(entries), "index.html")
    ensures var r := Generate(s, GenerateOk(Some(entries)));
      && r.selected == Some("index.html")
      && r.editor == Editor(FromEntries(entries).contents["index.html"], Language.Html)
      && (forall i :: 0 <= i < |r.items| ==> (r.items[i].marked <==> r.items[i].name == "index.html"))
  {
    var loaded, k := GenerateIndexUnfold(s, entries);
    ClickFresh(loaded, k);
    Language.DetectIndexHtml();
  }

  /** `generateProject` keeps `selectedFile` even when the new store lacks that name. */
  lemma GenerateKeepsStaleSelection(s: State, entries: seq<(string, string)>)
    requires HasSelection(s) && s.selected.value !in FromEntries(entries).contents
    requires !Truthy(FromEntries(entries), "index.html")
    ensures var r := Generate(s, GenerateOk(Some(entries)));
      r.selected == s.selected && r.selected.value !in r.files.contents
  {
    GenerateNoIndexEffect(s, entries);
  }

  /** Replacing the store and re-rendering keeps the invariant; the old marked `li`
      is now detached. */
  lemma ReloadPreservesInv(s: State, files: Store)
    requires Inv(s) && Valid(files)
    ensures Inv(Render(s.(files := files)))
  {
  }

  lemma GeneratePreservesInv(s: State, reply: GenerateReply)
    requires Inv(s)
    ensures Inv(Generate(s, reply))
  {
    if reply.GenerateOk? && reply.files.Some? {
      var entries := reply.files.value;
      ReloadPreservesInv(s, FromEntries(entries));
      if Truthy(FromEntries(entries), "index.html") {
        var loaded, k := GenerateIndexUnfold(s, entries);
        ClickPreservesInv(loaded, k);
      }
    }
  }

  /* ------------------------------ autocomplete ------------------------------ */

  /** `!selectedFile` is false: a name is selected and it is not the empty string. */
  predicate HasSelection(s: State) {
    s.selected.Some? && s.selected.value != ""
  }

  /** The body `autoComplete` posts, or None when it returns before any request. */
  function CompletionRequest(s: State): (q: Option<CompleteRequest>)
    ensures q.None? <==> !HasSelection(s)
    ensures q.Some? ==> q.value.code == s.editor.text && s.selected == Some(q.value.file)
  {
    if HasSelection(s) then Some(CompleteRequest(s.editor.text, s.selected.value)) else None
  }

  /** `autoComplete`: `reply` answers the request `CompletionRequest(s)` (none is sent
      without a selection). A truthy completion replaces both the editor text and the
      selected file's entry; otherwise an alert, and nothing else changes. */
  function AutoComplete(s: State, reply: CompleteReply): (r: State)
    requires Valid(s.files)
    ensures r.items == s.items && r.selected == s.selected && r.markedLi == s.markedLi
    ensures r.render == s.render && r.chat == s.chat && r.chatInput == s.chatInput
    ensures Valid(r.files) && s.files.order <= r.files.order
    ensures !HasSelection(s) ==>
      r.files == s.files && r.editor == s.editor && r.alerts == s.alerts + [OpenFileFirst]
    ensures HasSelection(s) && reply.CompleteFailed? ==>
      r.files == s.files && r.editor == s.editor && r.alerts == s.alerts + [AutoCompleteFailed]
    ensures HasSelection(s) && reply.CompleteOk? && (reply.completion.None? || reply.completion.value == "") ==>
      r.files == s.files && r.editor == s.editor && r.alerts == s.alerts + [NoCompletion]
    ensures HasSelection(s) && reply.CompleteOk? && reply.completion.Some? && reply.completion.value != "" ==>
      var f, c := s.selected.value, reply.completion.value;
      && r.editor == s.editor.(text := c)
      && f in r.files.contents && r.files.contents[f] == c
      && (forall k :: k != f ==> (k in r.files.contents <==> k in s.files.contents))
      && (forall k :: k != f && k in s.files.contents ==> r.files.contents[k] == s.files.contents[k])
      && r.alerts == s.alerts
  {
    if !HasSelection(s) then s.(alerts := s.alerts + [OpenFileFirst])
    else
      match reply
      case CompleteFailed => s.(alerts := s.alerts + [AutoCompleteFailed])
      case CompleteOk(completion) =>
        if completion.Some? && completion.value != "" then
          s.(editor := s.editor.(text := completion.value),
             files := Put(s.files, s.selected.value, completion.value))
        else s.(alerts := s.alerts + [NoCompletion])
  }

  lemma AutoCompletePreservesInv(s: State, reply: CompleteReply)
    requires Inv(s)
    ensures Inv(AutoComplete(s, reply))
  {
  }

  /** After a generation drops the selected file, a successful autocomplete writes that
      name back into the store, at the end of the key order, and the sidebar stops
      listing every key. */
  lemma StaleSelectionReinserted(s: State, reply: CompleteReply)
    requires Inv(s) && HasSelection(s) && s.selected.value !in s.files.contents
    requires ItemNames(s.items) == s.files.order
    requires reply.CompleteOk? && reply.completion.Some? && reply.completion.value != ""
    ensures var r := AutoComplete(s, reply);
      && r.files.order == s.files.order + [s.selected.value]
      && r.files.contents[s.selected.value] == reply.completion.value
      && ItemNames(r.items) != r.files.order
  {
    var r := AutoComplete(s, reply);
    assert |ItemNames(r.items)| == |s.files.order| < |r.files.order|;
  }

  /* ---------------------------------- chat ---------------------------------- */

  /** The question `sendMessage` sends: the trimmed input, on Enter, when not blank. */
  function ChatQuestion(s: State, key: Key): (q: Option<string>)
    ensures q.Some? <==> key == Enter && !Text.AllSpace(s.chatInput)
    ensures q.Some? ==> q.value == Text.Trim(s.chatInput) && q.value != ""
  {
    if key == Enter && Text.Trim(s.chatInput) != "" then Some(Text.Trim(s.chatInput)) else None
  }

  /** The synchronous half of `sendMessage`: log the question, clear the input, add the placeholder. */
  function Submit(s: State, key: Key): (r: State)
    ensures r == s.(chatInput := r.chatInput, chat := r.chat)
    ensures key != Enter || Text.AllSpace(s.chatInput) ==> r == s
    ensures key == Enter && !Text.AllSpace(s.chatInput) ==>
      && r.chatInput == ""
      && |r.chat| == |s.chat| + 2 && r.chat[..|s.chat|] == s.chat
      && r.chat[|s.chat|] == Chat.User(Text.Trim(s.chatInput))
      && r.chat[|s.chat| + 1] == Chat.Thinking
      && Chat.Placeholders(r.chat) == Chat.Placeholders(s.chat) + 1
  {
    match ChatQuestion(s, key)
    case None => s
    case Some(q) =>
      var log := s.chat + [Chat.User(q), Chat.Thinking];
      assert log[..|s.chat|] == s.chat;
      s.(chatInput := "", chat := log)
  }

  /** The resolution of `sendToBackend`: drop the placeholder, if there is one, and append
      exactly one AI entry. */
  function Answer(s: State, placeholder: Option<nat>, reply: Chat.AskReply): (r: State)
    requires placeholder.Some? ==> placeholder.value < |s.chat|
    ensures r == s.(chat := r.chat)
    ensures |r.chat| > 0 && r.chat[|r.chat| - 1] == Chat.Ai(Chat.AnswerText(reply))
    ensures placeholder.None? ==> r.chat[..|r.chat| - 1] == s.chat
    ensures placeholder.Some? ==>
      var p := placeholder.value;
      && |r.chat| == |s.chat|
      && r.chat[..p] == s.chat[..p]
      && r.chat[p..|r.chat| - 1] == s.chat[p + 1..]
  {
    var kept := if placeholder.Some? then Chat.RemoveAt(s.chat, placeholder.value) else s.chat;
    var log := kept + [Chat.Ai(Chat.AnswerText(reply))];
    assert log[..|log| - 1] == kept;
    s.(chat := log)
  }

  /** `sendMessage` on a keydown, with the backend's reply to the question it sends. */
  function SendMessage(s: State, key: Key, reply: Chat.AskReply): State {
    match ChatQuestion(s, key)
    case None => s
    case Some(q) => Answer(Submit(s, key), Some(|s.chat| + 1), reply)
  }

  /** A key other than Enter, or a blank input, changes nothing (the input is not cleared). */
  lemma SendMessageIgnored(s: State, key: Key, reply: Chat.AskReply)
    requires key != Enter || Text.AllSpace(s.chatInput)
    ensures SendMessage(s, key, reply) == s
  {
  }

  /** Otherwise the log gains the trimmed question and then one answer, the input is
      cleared, no placeholder is left over, and nothing else changes. */
  lemma SendMessageEffect(s: State, key: Key, reply: Chat.AskReply)
    requires key == Enter && !Text.AllSpace(s.chatInput)
    ensures var r := SendMessage(s, key, reply);
      && r == s.(chatInput := "", chat := r.chat)
      && r.chat == s.chat + [Chat.User(Text.Trim(s.chatInput)), Chat.Ai(Chat.AnswerText(reply))]
      && Chat.Placeholders(r.chat) == Chat.Placeholders(s.chat)
  {
    var q := Text.Trim(s.chatInput);
    var t := Chat.AnswerText(reply);
    var m := Submit(s, key);
    assert m == s.(chatInput := "", chat := s.chat + [Chat.User(q), Chat.Thinking]);
    Chat.ResolveLatest(s.chat, q, t);
  }

  /** `askAI`: a non-empty prompt answer (untrimmed) is sent with no placeholder and
      no user entry, so the log gains exactly one AI entry. */
  function AskAI(s: State, prompt: Option<string>, reply: Chat.AskReply): (r: State)
    ensures prompt.None? || prompt.value == "" ==> r == s
    ensures prompt.Some? && prompt.value != "" ==>
      r == s.(chat := s.chat + [Chat.Ai(Chat.AnswerText(reply))])
  {
    if prompt.None? || prompt.value == "" then s else Answer(s, None, reply)
  }

  /* ------------------------------- whole runs ------------------------------- */

  /** The demo files the page starts with, in the order they are declared. */
  const DemoNames: seq<string> := ["main.py", "index.html", "style.css", "script.js", "README.md"]

  const DemoMain: string := "print('Hello from main.py!')"
  const DemoIndex: string := "<!DOCTYPE html>\n<html>\n<head><title>Demo</title></head>\n<body>\n<h1>Hello World</h1>\n</body>\n</html>"
  const DemoStyle: string := "body { background: #eee; font-family: Arial; }"
  const DemoScript: string := "console.log('Hello from script.js!');"
  const DemoReadme: string := "# Trae SOLO IDE\nThis is a demo file explorer + editor."

  const Greeting: string := "// Select a file from the sidebar to load its contents..."

  /** The page as loaded: the demo files, listed, none selected, the editor's greeting. */
  function Init(): (s: State)
    ensures Inv(s) && NoneMarked(s.items) && s.selected.None? && s.chat == []
    ensures ItemNames(s.items) == s.files.order == DemoNames
  {
    var contents := map[
      DemoNames[0] := DemoMain, DemoNames[1] := DemoIndex, DemoNames[2] := DemoStyle,
      DemoNames[3] := DemoScript, DemoNames[4] := DemoReadme];
    Render(State(Store(DemoNames, contents), None, None, 0, [], Editor(Greeting, Language.JavaScript), "", [], []))
  }

  /** Everything that can happen to the page, one event at a time. */
  datatype Event =
    | ClickItem(index: nat)
    | TypeInEditor(text: string)
    | TypeInChat(input: string)
    | GenerateClicked(generated: GenerateReply)
    | AutoCompleteClicked(completed: CompleteReply)
    | ChatKey(key: Key, answered: Chat.AskReply)
    | AskClicked(prompt: Option<string>, asked: Chat.AskReply)

  function Next(s: State, e: Event): State
    requires Valid(s.files)
  {
    match e
    case ClickItem(i) => if i < |s.items| then Click(s, i) else s
    case TypeInEditor(text) => s.(editor := s.editor.(text := text))
    case TypeInChat(input) => s.(chatInput := input)
    case GenerateClicked(reply) => Generate(s, reply)
    case AutoCompleteClicked(reply) => AutoComplete(s, reply)
    case ChatKey(key, reply) => SendMessage(s, key, reply)
    case AskClicked(prompt, reply) => AskAI(s, prompt, reply)
  }

  /** The invariant speaks only of the store, the list and the selection. */
  lemma InvFrame(s: State, r: State)
    requires Inv(s)
    requires r.files == s.files && r.selected == s.selected && r.markedLi == s.markedLi
    requires r.render == s.render && r.items == s.items
    ensures Inv(r)
  {
  }

  /** The chat and the editor lie outside the invariant: a keydown keeps it... */
  lemma SendMessagePreservesInv(s: State, key: Key, reply: Chat.AskReply)
    requires Inv(s)
    ensures Inv(SendMessage(s, key, reply))
  {
    if key == Enter && !Text.AllSpace(s.chatInput) {
      SendMessageEffect(s, key, reply);
    } else {
      SendMessageIgnored(s, key, reply);
    }
    InvFrame(s, SendMessage(s, key, reply));
  }

  /** ...and so does an answer to the prompt. */
  lemma AskAIPreservesInv(s: State, prompt: Option<string>, reply: Chat.AskReply)
    requires Inv(s)
    ensures Inv(AskAI(s, prompt, reply))
  {
    InvFrame(s, AskAI(s, prompt, reply));
  }

  /** Every event keeps the invariant. */
  lemma NextPreservesInv(s: State, e: Event)
    requires Inv(s)
    ensures Inv(Next(s, e))
  {
    match e
    case ClickItem(i) =>
      if i < |s.items| { ClickPreservesInv(s, i); }
    case GenerateClicked(reply) =>
      assert Next(s, e) == Generate(s, reply);
      GeneratePreservesInv(s, reply);
    case AutoCompleteClicked(reply) =>
      assert Next(s, e) == AutoComplete(s, reply);
      AutoCompletePreservesInv(s, reply);
    case ChatKey(key, reply) =>
      assert Next(s, e) == SendMessage(s, key, reply);
      SendMessagePreservesInv(s, key, reply);
    case AskClicked(prompt, reply) =>
      assert Next(s, e) == AskAI(s, prompt, reply);
      AskAIPreservesInv(s, prompt, reply);
    case TypeInEditor(text) =>
      InvFrame(s, Next(s, e));
    case TypeInChat(input) =>
      InvFrame(s, Next(s, e));
  }

  /** No event takes anything out of the chat log: the placeholder a submission adds is
      resolved in the same step. */
  lemma NextKeepsChat(s: State, e: Event)
    requires Valid(s.files)
    ensures |s.chat| <= |Next(s, e).chat| && Next(s, e).chat[..|s.chat|] == s.chat
  {
    match e
    case GenerateClicked(reply) =>
      if reply.GenerateOk? && reply.files.Some? {
        if Truthy(FromEntries(reply.files.value), "index.html") {
          GenerateIndexEffect(s, reply.files.value);
        } else {
          GenerateNoIndexEffect(s, reply.files.value);
        }
      } else {
        GenerateFailedEffect(s, reply);
      }
    case ChatKey(key, reply) =>
      if key == Enter && !Text.AllSpace(s.chatInput) {
        SendMessageEffect(s, key, reply);
      } else {
        SendMessageIgnored(s, key, reply);
      }
    case _ =>
  }

  /** The state after a sequence of events. Every state reached keeps the invariant,
      so the sidebar never shows more than one selected `li`. */
  function Run(s: State, events: seq<Event>): (r: State)
    requires Inv(s)
    ensures Inv(r) && AtMostOneMarked(r.items)
    ensures |s.chat| <= |r.chat| && r.chat[..|s.chat|] == s.chat
    decreases |events|
  {
    if |events| == 0 then
      InvAtMostOneMarked(s);
      s
    else
      NextPreservesInv(s, events[0]);
      NextKeepsChat(s, events[0]);
      Run(Next(s, events[0]), events[1..])
  }

}

=== FILE: text.dfy ===
/** The two string operations the page performs on user data:
    `name.split(".").pop()` to find a file's extension, and `input.trim()` on the
    chat box. Strings are sequences of Unicode scalar values, where JavaScript has
    UTF-16 code units; both the dot and every white-space character are single units. */
module Text {

  /* ---------------------------- split and pop ---------------------------- */

  /** Glue `parts` back together with `sep` between neighbours (`Array.prototype.join`). */
  function Join(parts: seq<string>, sep: char): string
    requires |parts| >= 1
  {
    if |parts| == 1 then parts[0] else parts[0] + [sep] + Join(parts[1..], sep)
  }

  /** `s.split(sep)` for a one-character separator: the maximal separator-free
      pieces of `s`, always at least one (the empty string splits into `[""]`). */
  function Split(s: string, sep: char): (parts: seq<string>)
    ensures |parts| >= 1
    ensures forall i :: 0 <= i < |parts| ==> sep !in parts[i]
    ensures Join(parts, sep) == s
    decreases |s|
  {
    if |s| == 0 then [""]
    else
      var rest := Split(s[1..], sep);
      if s[0] == sep then
        assert s == [sep] + s[1..];
        [""] + rest
      else
        var head := [s[0]] + rest[0];
        var parts := [head] + rest[1..];
        assert parts[1..] == rest[1..];
        assert |rest| > 1 ==> Join(rest, sep) == rest[0] + [sep] + Join(rest[1..], sep);
        assert s == [s[0]] + s[1..];
        parts
  }

  /** `e` is the text after the last `sep` of `s`, or all of `s` when `s` holds no `sep`. */
  predicate IsLastSegment(s: string, e: string, sep: char) {
    && sep !in e
    && |e| <= |s|
    && s[|s| - |e|..] == e
    && (|e| == |s| || s[|s| - |e| - 1] == sep)
  }

  /** Joining splits off the last piece behind the last separator. */
  lemma {:induction false} JoinLast(parts: seq<string>, sep: char)
    requires |parts| >= 2
    ensures Join(parts, sep) == Join(parts[..|parts| - 1], sep) + [sep] + parts[|parts| - 1]
    decreases |parts|
  {
    if |parts| > 2 {
      JoinLast(parts[1..], sep);
      assert parts[1..][..|parts| - 2] == parts[..|parts| - 1][1..];
    }
  }

  /** `split(sep).pop()`: the last piece. */
  function LastPiece(s: string, sep: char): (e: string)
    ensures IsLastSegment(s, e, sep)
  {
    var parts := Split(s, sep);
    var e := parts[|parts| - 1];
    if |parts| >= 2 then
      JoinLast(parts, sep);
      var front := Join(parts[..|parts| - 1], sep);
      assert s == front + [sep] + e;
      assert s[|s| - |e|..] == e;
      assert s[|s| - |e| - 1] == sep;
      e
    else
      e
  }

  /** Every character of a last segment, as it sits in `s`, differs from `sep`. */
  lemma NoSepInLastSegment(s: string, e: string, sep: char)
    requires IsLastSegment(s, e, sep)
    ensures forall j :: |s| - |e| <= j < |s| ==> s[j] != sep
  {
    forall j | |s| - |e| <= j < |s| ensures s[j] != sep {
      assert s[j] == e[j - (|s| - |e|)];
    }
  }

  /** At most one string is the last segment of `s`. */
  lemma LastSegmentUnique(s: string, e1: string, e2: string, sep: char)
    requires IsLastSegment(s, e1, sep) && IsLastSegment(s, e2, sep)
    ensures e1 == e2
  {
    NoSepInLastSegment(s, e1, sep);
    NoSepInLastSegment(s, e2, sep);
    assert |e1| == |e2|;
  }

  /** `LastPiece` is exactly the last segment: the characterisation holds in both directions. */
  lemma LastPieceIff(s: string, e: string, sep: char)
    ensures LastPiece(s, sep) == e <==> IsLastSegment(s, e, sep)
  {
    if IsLastSegment(s, e, sep) {
      LastSegmentUnique(s, LastPiece(s, sep), e, sep);
    }
  }

  /* -------------------------------- trim -------------------------------- */

  /** White space and line terminators as `String.prototype.trim` removes them
      (ECMAScript WhiteSpace and LineTerminator code points). */
  predicate IsSpace(c: char) {
    || c == '\t' || c == '\n' || c == '\U{000B}' || c == '\U{000C}' || c == '\r'
    || c == ' ' || c == '\U{00A0}' || c == '\U{1680}'
    || ('\U{2000}' <= c <= '\U{200A}')
    || c == '\U{2028}' || c == '\U{2029}' || c == '\U{202F}' || c == '\U{205F}'
    || c == '\U{3000}' || c == '\U{FEFF}'
  }

  predicate AllSpace(s: string) {
    forall i :: 0 <= i < |s| ==> IsSpace(s[i])
  }

  /** How many white-space characters `s` starts with. */
  function LeadingSpaces(s: string): (n: nat)
    ensures n <= |s|
    ensures forall i :: 0 <= i < n ==> IsSpace(s[i])
    ensures n == |s| || !IsSpace(s[n])
  {
    if |s| > 0 && IsSpace(s[0]) then 1 + LeadingSpaces(s[1..]) else 0
  }

  /** How many white-space characters `s` ends with. */
  function TrailingSpaces(s: string): (n: nat)
    ensures n <= |s|
    ensures forall i :: |s| - n <= i < |s| ==> IsSpace(s[i])
    ensures n == |s| || !IsSpace(s[|s| - n - 1])
  {
    if |s| > 0 && IsSpace(s[|s| - 1]) then 1 + TrailingSpaces(s[..|s| - 1]) else 0
  }

  /** `s.trim()`: the infix of `s` left once white space is cut from both ends. It is
      empty exactly when `s` is all white space, and otherwise starts and ends with a
      character that is not. */
  function Trim(s: string): (r: string)
    ensures var lo := LeadingSpaces(s);
      && lo + |r| <= |s|
      && r == s[lo..lo + |r|]
      && (forall i :: 0 <= i < lo ==> IsSpace(s[i]))
      && (forall i :: lo + |r| <= i < |s| ==> IsSpace(s[i]))
    ensures r == "" || (!IsSpace(r[0]) && !IsSpace(r[|r| - 1]))
    ensures r == "" <==> AllSpace(s)
  {
    var lo := LeadingSpaces(s);
    if lo == |s| then ""
    else
      var hi := |s| - TrailingSpaces(s);
      assert !IsSpace(s[lo]);
      s[lo..hi]
  }

}

=== FILE: wrappers.dfy ===
/** The one optional-value type the model needs: a JavaScript value that may be
    `null`/`undefined` (a missing JSON field, no selected file, a cancelled prompt). */
module Wrappers {

  datatype Option<+T> = None | Some(value: T)

}
